=== FILE: README.md ===
# Pooled allocator and growable buffer, in Dafny

This project models the two in-memory components of the `ark` Go repository.

- **The size-class allocator** (`alloc/alloc.go`) keeps seventeen reuse pools. Pool `i` holds byte regions of capacity exactly 2^i, from 1 B up to 64 KiB.
  - `Get(size)` serves a request from the smallest class that fits it. The region it returns has length `size` and the class capacity. A size outside [1, 65536] gives nil.
  - `Put(buf)` takes a region back into the class of its capacity, with its length reset to that capacity. It refuses a nil region, a capacity outside (0, 65536] and a capacity that is not a power of two.
- **The growable buffer** (`buffer/buffer.go`) is a byte array with a read cursor `start` and a write cursor `end`.
  - It takes its storage from the allocator when it can, and marks that storage `pooled`.
  - It grows in three steps: nothing when there is room, else compaction to the front, else reallocation to `max(Len+n, 2*Cap)`.
  - Reads consume from the front, and both cursors return to 0 when the buffer drains.
  - `Release` hands storage back to the allocator only when that storage is pooled.

Files:
- `bits.dfy` holds powers of two, Go's `math/bits.Len` and the bitwise AND behind the test `c&(c-1) == 0`.
- `wrappers.dfy` holds `Option` and `Result`.
- `alloc.dfy` holds the allocator.
- `buffer.dfy` holds the buffer.
- `scenarios.dfy` holds client proofs of the cases the repository's tests exercise.

Modelling choices:
- A region is its Go slice header, `Region(len, cap)`. A pool is the capacity its `New` function allocates plus a sequence of cached regions.
- `Allocator` is a class whose `buffers` field is an array of pools. `Get` and `Put` update that array in place.
- `Get` takes a `cached` flag. It stands for `sync.Pool`'s own choice between handing back a cached region and allocating a fresh one. A false flag covers both a miss and an eviction.
- `Buffer` is a class over `array<byte>`.
  - `data.Length` is the Go slice's length, which is what every buffer operation uses.
  - `dataCap` is the slice's capacity, which only `Release` passes on to `Put`.
  - `nilData` marks the nil slice.
  - A ghost field `content` equals `data[start..end]`.
- The object invariant `Buffer.Valid` has six parts:
  - `start <= end <= data.Length`;
  - `content` is the readable window;
  - a drained buffer has both cursors at 0;
  - the slice length never exceeds its capacity: `data.Length <= dataCap`;
  - nil storage has capacity 0;
  - pooled storage is non-nil, of a length in [1, 65536], and its capacity is that of the class its length is served from.

  The last part is what makes `Put` inside `Release` always succeed.
- `grow` is the method `Grow`. Its compaction and reallocation steps are the helper methods `Compact` and `Reallocate`, in the same order and under the same conditions as in the source.
- The source's `Get` rounds a request up to a class capacity, but the buffer works with the slice's length only. A pooled buffer of size 3 therefore reallocates on its 4th byte, even though its storage has capacity 4. The model follows the code here: `Cap()` is the slice length and `Grow` never uses the extra capacity.
- The two defensive "index out of range" branches (alloc/alloc.go:62-64 and 89-91) are kept in the methods. The contracts show that they are unreachable: `ClassIndex` is at most 16, and `CheckPut` never yields `BadIndex`.
- Inside `grow`, the fallback `if newCap == 0 { newCap = n }` is kept as well. `Reallocate`'s contract shows that the new capacity is always `max(Len+n, 2*Cap)`, so this fallback never changes the result.

## Model

| member | source | states |
|---|---|---|
| `Bits.LenBounds` | alloc/alloc.go:47 | for x > 0, math/bits.Len(x) is at least 1 and 2^(Len(x)-1) <= x < 2^Len(x) |
| `Bits.LenUnique` | alloc/alloc.go:47 | the bit length is fixed by the power-of-two interval x lies in |
| `Bits.AndPredecessorTest` | alloc/alloc.go:83-86 | for c > 0, c & (c-1) == 0 exactly when c == 2^(Len(c)-1) |
| `Bits.PowerOfTwoTest` | alloc/alloc.go:83-86 | for c > 0, c & (c-1) == 0 exactly when c is a power of two |
| `Alloc.Msb` | alloc/alloc.go:41-48 | for size > 0 the result r satisfies 2^r <= size < 2^(r+1) (floor log2); for size <= 0 it is 0 |
| `Alloc.MsbUnique` | alloc/alloc.go:41-48 | msb is the only exponent k with 2^k <= size < 2^(k+1) |
| `Alloc.MsbOfPow2` | alloc/alloc.go:88 | the class Put computes for capacity 2^k is k |
| `Alloc.MaxSizeIsPow2` | alloc/alloc.go:9-10 | 2^16 == MaxSize, the capacity of the largest class |
| `Alloc.ExponentBound` | alloc/alloc.go:62-64 | a power of two of at most MaxSize has exponent <= 16, so it names one of the 17 pools |
| `Alloc.ClassIndex` | alloc/alloc.go:58-64 | the class Get computes lies in [0, 16], its capacity reaches size and the class below does not, so the defensive nil return is unreachable |
| `Alloc.ClassIndexIsSmallest` | alloc/alloc.go:50-61 | no class smaller than ClassIndex(size) has a capacity that reaches size |
| `Alloc.ClassIndexIs` | alloc/alloc.go:58-61 | a size in (2^(k-1), 2^k] is served from class k |
| `Alloc.ClassCapacity` | alloc/alloc.go:50-52 | the capacity Get hands out is the smallest power of two >= size, and at most MaxSize |
| `Alloc.CheckPut` | alloc/alloc.go:75-91 | nil gives NilRegion; a capacity outside (0, MaxSize] gives BadSize; otherwise NotPowerOfTwo exactly when the capacity is not a power of two; success exactly for a power-of-two capacity in range, at index msb(cap) <= 16; BadIndex never |
| `Alloc.TakeKeepsClass` | alloc/alloc.go:30-36 | a pool of class i still holds only class-i regions after sync.Pool's Get, and what it hands out (cached or fresh from New) has length and capacity 2^i |
| `Alloc.GiveKeepsClass` | alloc/alloc.go:93-95 | depositing a full-length region of capacity 2^i keeps pool i within its class |
| `Alloc.GiveThenTake` | alloc/alloc.go:66 | a cache hit right after Put hands back the region just put, and the pool is as it was before |
| `Alloc.Allocator.constructor` | alloc/alloc.go:23-39 | NewAllocator: 17 empty pools, pool i allocating regions of 2^i bytes |
| `Alloc.Allocator.Get` | alloc/alloc.go:50-69 | nil exactly for size <= 0 or > 65536, with no pool changed; otherwise length == size, capacity == 2^ClassIndex(size), and only that class's pool changes, by sync.Pool's Get |
| `Alloc.Allocator.Put` | alloc/alloc.go:71-97 | a refused region leaves every pool unchanged and reports CheckPut's error; an accepted one is appended, with length reset to its capacity, to pool msb(cap), and no other pool changes |
| `Alloc.ReuseAfterPut` | alloc/alloc_test.go:77-91 | Get(4), Put, Get(4) gives the same capacity 4 twice, whatever each Get's pool does; when the second Get hits the cache, the very region put comes back and the pools end as the first Get left them |
| `Buffers.CopyTo` | buffer/buffer.go:151 | Go's copy: min(len(dst)-at, len(src)) bytes land at `at`, and every other byte of dst is unchanged |
| `Buffers.Buffer.NewSize` | buffer/buffer.go:27-53 | an empty buffer; size <= 0 gives nil storage, not pooled; 1..65536 gives pooled storage of length size drawn from class ClassIndex(size); larger sizes give unpooled storage of length size and leave the pools unchanged |
| `Buffers.Buffer.New` | buffer/buffer.go:22-25 | New gives an empty pooled buffer of DefaultSize bytes whose capacity is exactly DefaultSize; only pool 15 (32 KiB) changes, by sync.Pool's Get |
| `Buffers.Buffer.FromBytes` | buffer/buffer.go:55-64 | content == bs, start 0, end len(bs), not pooled |
| `Buffers.Buffer.Bytes` | buffer/buffer.go:66-69 | the readable window is the content |
| `Buffers.Buffer.Len` | buffer/buffer.go:71-74 | the number of readable bytes is the content's length |
| `Buffers.Buffer.Cap` | buffer/buffer.go:76-79 | the capacity is the storage length and never less than the content |
| `Buffers.Buffer.IsEmpty` | buffer/buffer.go:81-84 | true exactly when the content is empty |
| `Buffers.Buffer.To` | buffer/buffer.go:193-203 | nothing for n <= 0; otherwise the first min(n, Len) bytes of the content, which is left unchanged |
| `Buffers.Buffer.Reset` | buffer/buffer.go:86-90 | the content becomes empty with both cursors at 0; storage and ownership are kept |
| `Buffers.Buffer.Grow` | buffer/buffer.go:92-132 | the content is unchanged and n bytes are free after end. The call does nothing when n <= 0 or the room is already there. The storage is replaced exactly when Cap - Len < n; the new storage is fresh, unpooled, starts at 0 and has length max(Len+n, 2*Cap) |
| `Buffers.Buffer.Compact` | buffer/buffer.go:102-111 | compaction moves the content to offset 0 of the same storage |
| `Buffers.Buffer.Reallocate` | buffer/buffer.go:113-131 | reallocation: fresh unpooled storage of length max(Len+n, 2*Cap) holding the content at its front |
| `Buffers.Buffer.Extend` | buffer/buffer.go:134-143 | Len grows by exactly n; the returned offset lo satisfies lo + n == end, and the new content is the old content followed by data[lo..end]; the storage is replaced exactly when Cap - Len < n, and otherwise keeps its capacity and ownership. When n bytes already fit after end, nothing moves: start is kept, lo is the old end and every stored byte is unchanged, so the reserved bytes are whatever the storage held there; otherwise start is 0 and lo is the old Len |
| `Buffers.Buffer.Write` | buffer/buffer.go:145-154 | returns len(p) and no error; the content becomes old content ++ p; when p fits after end, the storage is kept, start is kept, end advances by len(p) and no byte outside the new tail changes; an empty p changes nothing, neither the cursors nor the storage, its bytes or its ownership; the storage is replaced exactly when Cap - Len < len(p), and otherwise keeps its capacity and ownership |
| `Buffers.Buffer.Append` | buffer/buffer.go:151-152 | the copy step of Write: with room for p after end, exactly len(p) bytes are copied and no other byte of the storage changes, end advances by len(p), start is unchanged and the content becomes old content ++ p |
| `Buffers.Buffer.WriteByte` | buffer/buffer.go:156-162 | never fails; the content becomes old content ++ [c]; when there is room after end, the storage is kept, start is kept, end advances by 1 and only the byte at the old end changes; the storage is replaced exactly when it is full, and otherwise keeps its capacity and ownership |
| `Buffers.Buffer.Read` | buffer/buffer.go:164-177 | on an empty buffer, EOF with nothing changed; otherwise min(len(p), Len) bytes move from the front of the content to p, and the rest of p is untouched |
| `Buffers.Buffer.ReadByte` | buffer/buffer.go:179-191 | on an empty buffer, EOF with nothing changed; otherwise the first byte is returned and consumed |
| `Buffers.Buffer.ReadBytes` | buffer/buffer.go:205-221 | n < 0 gives NegativeLength and Len < n gives EOF, both with the state unchanged; otherwise exactly the first n bytes are returned and consumed |
| `Buffers.Buffer.Release` | buffer/buffer.go:223-233 | pooled storage goes back, length reset to capacity, to the class it was drawn from. Any other storage leaves every pool unchanged. The buffer becomes the zero Buffer |
| `Scenarios.GetCapacityExamples` | alloc/alloc_test.go:9-47 | the capacities Get gives for 1, 2, 3, 4, 1023, 1024 and 65536 are 1, 2, 4, 4, 1024, 1024 and 65536 |
| `Scenarios.MsbExamples` | alloc/alloc.go:41-42 | msb(1)=0, msb(2)=1, msb(3)=1, msb(4)=2 |
| `Scenarios.PutExamples` | alloc/alloc_test.go:49-75 | Put refuses nil, capacity 3 and capacity 65537, and accepts 4 and 65536 |
| `Scenarios.WriteGrows` | buffer/buffer_test.go:73-92 | NewSize(2) then Write("abcdefg") holds exactly "abcdefg", Len 7, Cap >= 7, after a reallocation that clears pooled |
| `Scenarios.ToClamps` | buffer/buffer_test.go:142-152 | on "hello", To(2) is "he" and To(10) is "hello" |
| `Scenarios.ReadBytesExactly` | buffer/buffer_test.go:154-182 | ReadBytes(3) twice on "abcdef" gives "abc" and "def"; ReadBytes(3) on "xy" is EOF and keeps both bytes |
| `Scenarios.WriteByteThenReadByte` | buffer/buffer_test.go:94-119 | any byte sequence written one by one into a nil-storage buffer, through every doubling grow it forces, comes back in order through ReadByte, then EOF |
| `Scenarios.ReadAllBytes` | buffer/buffer_test.go:94-119 | calling ReadByte until the buffer is empty returns its whole content, in order, and leaves it empty |
| `Scenarios.ExtendAfterWrite` | buffer/buffer_test.go:121-140 | after Write("ab") and Extend(3), Len is 5, "ab" is kept and the last three bytes are the returned region |
| `Scenarios.ExtendExposesOldBytes` | buffer/buffer.go:134-143 | draining resets the cursors without clearing the storage (buffer/buffer.go:216-219), so after reading all of "abcdef", Extend(3) makes "abc" the content again |
| `Scenarios.WriteThenRead` | buffer/buffer_test.go:41-71 | writing p into an empty buffer and reading into a big enough array yields p and drains the buffer |
| `Scenarios.ResetThenWrite` | buffer/buffer_test.go:184-203 | after Reset, a Write that fits leaves exactly what was written, in the same storage |
| `Scenarios.ReleaseIsSafe` | buffer/buffer_test.go:205-211 | releasing a pooled buffer puts one region of capacity 16 back into class 4. A second Release, or a Release of a FromBytes buffer, changes no pool |

## Left out

- The package-level `defaultAllocator` and the `Get`/`Put` wrappers around it (alloc/alloc.go:20, 99-107) are left out. Every caller passes an explicit `Allocator`, and the wrappers only forward to it.
- `sync.Pool`'s thread safety and garbage-collector eviction are left out. A pool is a plain sequence, and `Get`'s `cached` flag lets a fresh region be returned at any time. A pool that hits its cache hands back the most recently put region. Go leaves that order unspecified.
- The bytes inside pooled regions are not modelled, because the allocator never reads them. A buffer's fresh storage has unspecified contents, which covers both stale bytes and zeroed bytes.
- Aliasing is left out. `FromBytes` copies the caller's bytes instead of sharing them. `Bytes` and `To` return values, and `Extend` returns an offset. Writes made later through a returned slice are not tracked. `Write` takes `p` as a value, so the model proves `content == old(content) + p` for every `p`. In Go, `b.Write(b.Bytes())` after a partial read lets the compaction in `grow` (buffer/buffer.go:103-106) shift the bytes that `p` still points into, so the copy at buffer/buffer.go:151 reads shifted bytes. For example, content "abc" at start 2 of a 7-byte slice becomes "abccbc", not "abcabc".
- `Buffers.Buffer.Read` requires that the destination is not the buffer's own storage. A caller could only obtain that storage through the aliasing that is left out.
- `Buffers.Buffer.Extend`: the panic for n < 0 is modelled as the precondition `n >= 0`, because a panic is a fatal error and not a result.
- `Buffers.Buffer.Release`: the `b == nil` guard is not modelled, because a Dafny receiver is never null.
- `Buffers.Buffer.Release`: the error that `Put` could return is discarded, as in the source. The invariant shows that `Put` never refuses pooled storage.
- Go's 64-bit `int` overflow and allocation failure are not modelled. Integers here are unbounded and `new` always succeeds. In Go, an `Extend(n)` with n near the largest `int` makes `curLen + n` and `b.end += n` wrap (buffer/buffer.go:115, 141), and the slice expression or `make` then panics (buffer/buffer.go:123, 142). `Write` cannot reach this, since its n is the length of a slice already in memory. The model's `Buffers.Buffer.Extend` and `Buffers.Buffer.Grow` return normally with larger storage instead. Both failures are fatal in Go.
- `Buffers.Buffer.FromBytes`: a nil argument is not distinguished from an empty slice. The buffer is unpooled either way, so `Release` behaves the same.
- The benchmarks in alloc/alloc_test.go and the logger package (file rotation, timestamps, formatting, locking) are left out. They are I/O and are not part of this model.

=== FILE: alloc.dfy ===
/**
 * The size-class allocator: seventeen reuse pools, pool i holding byte
 * regions of capacity exactly 2^i (1 B .. 64 KiB).
 *
 * A region is modelled by its Go slice header only: its length and its
 * capacity. The bytes it holds are not tracked here, since the allocator
 * never reads them. A pool is the sequence of regions it keeps cached plus
 * the capacity its New function allocates.
 */
module Alloc {
  import opened Wrappers
  import opened Bits

  /** The largest size served from a pool (64 KiB). */
  const MaxSize: nat := 65536
  /** 2^MaxBits == MaxSize; there are MaxBits + 1 size classes. */
  const MaxBits: nat := 16

  /** A byte slice seen through its header: len and cap. */
  datatype Region = Region(len: nat, cap: nat)

  /** Why Put refused a region. */
  datatype PutError = NilRegion | BadSize | NotPowerOfTwo | BadIndex

  /**
   * One reuse pool: `newSize` is the capacity its New function allocates,
   * `free` the cached regions, the most recently returned one last. Every
   * pool of an Allocator has a New function; a pool without one is not modelled.
   */
  datatype Pool = Pool(newSize: nat, free: seq<Region>)
  {
    /** Every region this pool hands out or keeps has capacity 2^i and full length. */
    ghost predicate HoldsClass(i: nat) {
      newSize == Pow2(i) &&
      forall r :: r in free ==> r == Region(Pow2(i), Pow2(i))
    }

    /**
     * sync.Pool.Get: hands back a cached region when the pool still has one
     * and yields it (`cached`), and otherwise a fresh region from New. A
     * false `cached` covers both a miss and an eviction of the entries.
     */
    function Take(cached: bool): (r: (Pool, Region))
      ensures r.0.newSize == newSize && r.0.free <= free
    {
      if cached && free != [] then (this.(free := free[..|free| - 1]), free[|free| - 1])
      else (this, Region(newSize, newSize))
    }

    /** sync.Pool.Put: caches a region. */
    function Give(r: Region): (p: Pool)
      ensures p.newSize == newSize && |p.free| == |free| + 1 && p.free[..|free|] == free && p.free[|free|] == r
    {
      this.(free := free + [r])
    }
  }

  /** A pool that holds its class keeps holding it across Take, and what Take hands out belongs to the class. */
  lemma TakeKeepsClass(p: Pool, i: nat, cached: bool)
    requires p.HoldsClass(i)
    ensures p.Take(cached).0.HoldsClass(i)
    ensures p.Take(cached).1 == Region(Pow2(i), Pow2(i))
  {
    if cached && p.free != [] {
      var rest := p.free[..|p.free| - 1];
      assert p.free[|p.free| - 1] in p.free;
      forall r | r in rest
        ensures r == Region(Pow2(i), Pow2(i))
      {
        var k :| 0 <= k < |rest| && rest[k] == r;
        assert p.free[k] == r && p.free[k] in p.free;
      }
    }
  }

  /** Depositing a full-length region of the class keeps the pool within its class. */
  lemma GiveKeepsClass(p: Pool, i: nat, r: Region)
    requires p.HoldsClass(i) && r == Region(Pow2(i), Pow2(i))
    ensures p.Give(r).HoldsClass(i)
  {
  }

  /** Reuse: a region just returned to a pool is the one a cache hit hands back, and the pool is as before. */
  lemma GiveThenTake(p: Pool, r: Region)
    ensures p.Give(r).Take(true) == (p, r)
  {
    assert (p.free + [r])[..|p.free|] == p.free;
  }

  /** The capacities of the seventeen classes. */
  lemma ClassSizes()
    ensures Pow2(0) == 1 && Pow2(1) == 2 && Pow2(2) == 4 && Pow2(3) == 8 && Pow2(4) == 16
    ensures Pow2(5) == 32 && Pow2(6) == 64 && Pow2(7) == 128 && Pow2(8) == 256
    ensures Pow2(9) == 512 && Pow2(10) == 1024 && Pow2(11) == 2048 && Pow2(12) == 4096
    ensures Pow2(13) == 8192 && Pow2(14) == 16384 && Pow2(15) == 32768 && Pow2(16) == 65536
  {
    assert Pow2(1) == 2 && Pow2(2) == 4 && Pow2(3) == 8 && Pow2(4) == 16;
    assert Pow2(5) == 32 && Pow2(6) == 64 && Pow2(7) == 128 && Pow2(8) == 256;
    assert Pow2(9) == 512 && Pow2(10) == 1024 && Pow2(11) == 2048 && Pow2(12) == 4096;
    assert Pow2(13) == 8192 && Pow2(14) == 16384 && Pow2(15) == 32768;
  }

  /** The largest class is 2^MaxBits == MaxSize bytes. */
  lemma MaxSizeIsPow2()
    ensures Pow2(MaxBits) == MaxSize
  {
    ClassSizes();
  }

  /** A power of two that does not exceed MaxSize has an exponent of at most MaxBits. */
  lemma ExponentBound(k: nat)
    requires Pow2(k) <= MaxSize
    ensures k <= MaxBits
  {
    MaxSizeIsPow2();
    if k > MaxBits {
      Pow2Monotone(MaxBits + 1, k);
    }
  }

  /** floor(log2 size) for size > 0, and 0 otherwise. */
  function Msb(size: int): (r: nat)
    ensures size > 0 ==> Pow2(r) <= size < Pow2(r + 1)
    ensures size <= 0 ==> r == 0
  {
    if size <= 0 then 0 else LenBounds(size); Len(size) - 1
  }

  /** Msb(size) is the only k with 2^k <= size < 2^(k+1). */
  lemma MsbUnique(size: int, k: nat)
    requires size > 0 && Pow2(k) <= size < Pow2(k + 1)
    ensures Msb(size) == k
  {
    LenUnique(size, k);
  }

  /** The class of a power-of-two capacity is its exponent. */
  lemma MsbOfPow2(k: nat)
    ensures Msb(Pow2(k)) == k
  {
    MsbUnique(Pow2(k), k);
  }

  /**
   * The class Get draws a request of `size` bytes from: Msb(size), rounded
   * up unless size is itself a power of two. It lies in [0, MaxBits], so the
   * size of class idx is at least size and the class below is too small.
   */
  function ClassIndex(size: int): (idx: nat)
    requires 0 < size <= MaxSize
    ensures idx <= MaxBits
    ensures size <= Pow2(idx)
    ensures idx > 0 ==> Pow2(idx - 1) < size
  {
    var m := Msb(size);
    ExponentBound(m);
    MaxSizeIsPow2();
    if size != Pow2(m) then m + 1 else m
  }

  /** ClassIndex(size) is the smallest class whose capacity reaches size. */
  lemma ClassIndexIsSmallest(size: int, j: nat)
    requires 0 < size <= MaxSize
    requires size <= Pow2(j)
    ensures ClassIndex(size) <= j
  {
    var idx := ClassIndex(size);
    if j < idx {
      var below := Pow2(idx - 1);
      assert below < size;
      Pow2Monotone(j, idx - 1);
    }
  }

  /** A size between 2^(k-1) (exclusive) and 2^k (inclusive) is served from class k. */
  lemma ClassIndexIs(size: int, k: nat)
    requires 0 < size <= MaxSize
    requires size <= Pow2(k) && (k == 0 || Pow2(k - 1) < size)
    ensures ClassIndex(size) == k
  {
    var idx := ClassIndex(size);
    ClassIndexIsSmallest(size, k);
    if idx < k {
      Pow2Monotone(idx, k - 1);
    }
  }

  /** The capacity Get hands out for a size: the smallest power of two that is at least size. */
  lemma ClassCapacity(size: int)
    requires 0 < size <= MaxSize
    ensures IsPowerOfTwo(Pow2(ClassIndex(size)))
    ensures size <= Pow2(ClassIndex(size)) <= MaxSize
    ensures forall c: nat :: IsPowerOfTwo(c) && size <= c ==> Pow2(ClassIndex(size)) <= c
  {
    var idx := ClassIndex(size);
    MaxSizeIsPow2();
    Pow2Monotone(idx, MaxBits);
    forall c: nat | IsPowerOfTwo(c) && size <= c
      ensures Pow2(idx) <= c
    {
      var k: nat :| Pow2(k) == c;
      ClassIndexIsSmallest(size, k);
      Pow2Monotone(idx, k);
    }
  }

  /**
   * The checks Put makes before it keeps a region: a nil slice, a capacity
   * outside (0, MaxSize], and a capacity that is not a power of two are
   * refused, in that order; otherwise the region belongs to class Msb(cap).
   */
  function CheckPut(buf: Option<Region>): (r: Result<nat, PutError>)
    ensures buf.None? ==> r == Failure(NilRegion)
    ensures buf.Some? && !(0 < buf.value.cap <= MaxSize) ==> r == Failure(BadSize)
    ensures buf.Some? && 0 < buf.value.cap <= MaxSize ==>
              (r == Failure(NotPowerOfTwo) <==> !IsPowerOfTwo(buf.value.cap))
    ensures r.Success? <==> buf.Some? && 0 < buf.value.cap <= MaxSize && IsPowerOfTwo(buf.value.cap)
    ensures r.Success? ==> r.value <= MaxBits && Pow2(r.value) == buf.value.cap
    ensures r != Failure(BadIndex)
  {
    if buf.None? then Failure(NilRegion)
    else
      var c := buf.value.cap;
      if c <= 0 || c > MaxSize then Failure(BadSize)
      else if And(c, c - 1) != 0 then PowerOfTwoTest(c); Failure(NotPowerOfTwo)
      else
        PowerOfTwoTest(c);
        var k: nat :| Pow2(k) == c;
        MsbOfPow2(k);
        ExponentBound(k);
        Success(Msb(c))
  }

  /** Allocator owns one reuse pool per size class. */
  class Allocator {
    var buffers: array<Pool>

    /** There are MaxBits + 1 pools and pool i holds exactly the regions of capacity 2^i. */
    ghost predicate Valid()
      reads this, buffers
    {
      buffers.Length == MaxBits + 1 &&
      forall i :: 0 <= i < buffers.Length ==> buffers[i].HoldsClass(i)
    }

    /** NewAllocator: every pool starts empty, with a New function of its class size. */
    constructor ()
      ensures Valid() && fresh(buffers)
      ensures forall i :: 0 <= i < buffers.Length ==> buffers[i].free == []
    {
      var pools := new Pool[MaxBits + 1];
      var i := 0;
      while i < pools.Length
        invariant 0 <= i <= pools.Length
        invariant forall j :: 0 <= j < i ==> pools[j].HoldsClass(j) && pools[j].free == []
      {
        // a zero pool whose New function allocates 1 << i bytes
        pools[i] := Pool(Pow2(i), []);
        i := i + 1;
      }
      buffers := pools;
    }

    /**
     * A region of length size drawn from the smallest class that fits it,
     * or None for a size outside [1, MaxSize]. `cached` stands for the
     * pool's own choice between a cached region and a fresh one.
     */
    method Get(size: int, cached: bool) returns (buf: Option<Region>)
      requires Valid()
      modifies buffers
      ensures Valid()
      ensures buf.None? <==> size <= 0 || size > MaxSize
      ensures buf.None? ==> buffers[..] == old(buffers[..])
      ensures buf.Some? ==>
                buf.value.len == size && buf.value.cap == Pow2(ClassIndex(size)) &&
                var idx := ClassIndex(size);
                buffers[..] == old(buffers[..])[idx := old(buffers[idx]).Take(cached).0]
    {
      if size <= 0 || size > MaxSize {
        return None;
      }
      var idx := Msb(size);
      if size != Pow2(idx) {
        idx := idx + 1;
      }
      assert idx == ClassIndex(size);
      if idx >= buffers.Length {
        return None;
      }
      TakeKeepsClass(buffers[idx], idx, cached);
      var (pool, region) := buffers[idx].Take(cached);
      buffers[idx] := pool;
      buf := Some(region.(len := size));
    }

    /**
     * Returns a region to the pool of its class with its length reset to
     * its capacity, or refuses it, leaving every pool as it was.
     */
    method Put(buf: Option<Region>) returns (err: Option<PutError>)
      requires Valid()
      modifies buffers
      ensures Valid()
      ensures match CheckPut(buf)
              case Failure(e) => err == Some(e) && buffers[..] == old(buffers[..])
              case Success(idx) =>
                err == None &&
                buffers[..] == old(buffers[..])[idx := old(buffers[idx]).Give(Region(buf.value.cap, buf.value.cap))]
    {
      if buf.None? {
        return Some(NilRegion);
      }
      var c := buf.value.cap;
      if c <= 0 || c > MaxSize {
        return Some(BadSize);
      }
      if And(c, c - 1) != 0 {
        return Some(NotPowerOfTwo);
      }
      var idx := Msb(c);
      if idx >= buffers.Length {
        return Some(BadIndex);
      }
      PowerOfTwoTest(c);
      AndPredecessorTest(c);
      GiveKeepsClass(buffers[idx], idx, Region(c, c));
      buffers[idx] := buffers[idx].Give(Region(c, c));
      err := None;
    }
  }

  /**
   * The reuse scenario: a region of 4 bytes, returned with Put and asked for
   * again, comes back with the same capacity; on a cache hit it is the very
   * region that was returned, and the pools are as they were before.
   */
  method ReuseAfterPut(a: Allocator, cachedFirst: bool, cachedSecond: bool) returns (first: Option<Region>, second: Option<Region>)
    requires a.Valid()
    modifies a.buffers
    ensures a.Valid()
    ensures first.Some? && second.Some?
    ensures first.value.cap == second.value.cap == 4
    ensures cachedSecond ==>
              second.value == first.value &&
              a.buffers[..] == old(a.buffers[..])[2 := old(a.buffers[2]).Take(cachedFirst).0]
  {
    assert Pow2(2) == 4;
    MsbUnique(4, 2);
    first := a.Get(4, cachedFirst);
    ghost var afterGet := a.buffers[2];
    var err := a.Put(first);
    MsbOfPow2(2);
    second := a.Get(4, cachedSecond);
    GiveThenTake(afterGet, Region(4, 4));
  }
}

=== FILE: bits.dfy ===
/**
 * The integer bit arithmetic the allocator relies on: powers of two, the bit
 * length computed by Go's math/bits.Len, and the bitwise AND used for the
 * power-of-two test `c&(c-1) == 0`. All operands are non-negative here, so
 * the model works on unbounded naturals.
 */
module Bits {

  /** 2^k, i.e. Go's `1 << uint(k)` for the small shifts used by the allocator. */
  function Pow2(k: nat): (r: nat)
    ensures r >= 1
  {
    if k == 0 then 1 else 2 * Pow2(k - 1)
  }

  /** Whether c is an exact power of two. */
  ghost predicate IsPowerOfTwo(c: int) {
    exists k: nat :: Pow2(k) == c
  }

  lemma {:induction false} Pow2Monotone(j: nat, k: nat)
    requires j <= k
    ensures Pow2(j) <= Pow2(k)
  {
    if j < k {
      Pow2Monotone(j, k - 1);
    }
  }

  /** The number of bits needed to represent x (0 for x == 0), as math/bits.Len. */
  function Len(x: nat): (r: nat)
  {
    if x == 0 then 0 else 1 + Len(x / 2)
  }

  /** For x > 0 the bit length is one more than floor(log2 x). */
  lemma {:induction false} LenBounds(x: nat)
    requires x > 0
    ensures Len(x) >= 1
    ensures Pow2(Len(x) - 1) <= x < Pow2(Len(x))
  {
    if x > 1 {
      LenBounds(x / 2);
    }
  }

  /** The bit length is determined by the power-of-two interval x lies in. */
  lemma LenUnique(x: nat, k: nat)
    requires Pow2(k) <= x < Pow2(k + 1)
    ensures Len(x) == k + 1
  {
    LenBounds(x);
    var m := Len(x) - 1;
    if m > k {
      Pow2Monotone(k + 1, m);
    } else if m < k {
      Pow2Monotone(m + 1, k);
    }
  }

  /** Bitwise AND of two non-negative integers. */
  function And(a: nat, b: nat): (r: nat)
    ensures r <= a && r <= b
  {
    if a == 0 || b == 0 then 0
    else 2 * And(a / 2, b / 2) + (if a % 2 == 1 && b % 2 == 1 then 1 else 0)
  }

  lemma {:induction false} AndSelf(a: nat)
    ensures And(a, a) == a
  {
    if a > 0 {
      AndSelf(a / 2);
    }
  }

  /**
   * The classic test: for c > 0, c & (c-1) clears the lowest set bit, so it
   * is zero exactly when c has a single set bit, i.e. c == 2^(Len(c)-1).
   */
  lemma {:induction false} AndPredecessorTest(c: nat)
    requires c > 0
    ensures Len(c) >= 1
    ensures And(c, c - 1) == 0 <==> Pow2(Len(c) - 1) == c
  {
    LenBounds(c);
    if c == 1 {
    } else if c % 2 == 1 {
      OddAndPredecessor(c);
    } else {
      var m := c / 2;
      assert c == 2 * m;
      AndPredecessorTest(m);
      EvenAndPredecessor(m);
      EvenLen(m);
    }
  }

  /** An odd c > 1 keeps its upper bits under c & (c-1), and is no power of two. */
  lemma OddAndPredecessor(c: nat)
    requires c > 1 && c % 2 == 1
    ensures And(c, c - 1) != 0
    ensures Pow2(Len(c) - 1) != c
  {
    var m := c / 2;
    assert c - 1 == 2 * m && (c - 1) / 2 == m && (c - 1) % 2 == 0;
    AndSelf(m);
    assert And(c, c - 1) == 2 * m;
    LenBounds(m);
    assert Len(c) == 1 + Len(m);
    assert Pow2(Len(c) - 1) == 2 * Pow2(Len(m) - 1);
  }

  /** For an even c = 2m, c & (c-1) is twice m & (m-1). */
  lemma EvenAndPredecessor(m: nat)
    requires m > 0
    ensures And(2 * m, 2 * m - 1) == 2 * And(m, m - 1)
  {
    var c := 2 * m;
    assert c / 2 == m && c % 2 == 0;
    assert (c - 1) / 2 == m - 1 && (c - 1) % 2 == 1;
  }

  /** For an even c = 2m, c is 2^(Len(c)-1) exactly when m is 2^(Len(m)-1). */
  lemma EvenLen(m: nat)
    requires m > 0
    ensures Len(m) >= 1
    ensures Pow2(Len(2 * m) - 1) == 2 * m <==> Pow2(Len(m) - 1) == m
  {
    LenBounds(m);
    var l := Len(m);
    assert Len(2 * m) == 1 + l by {
      assert (2 * m) / 2 == m;
    }
    var p := Pow2(l - 1);
    assert Pow2(l) == 2 * p;
  }

  /** An x > 0 is a power of two exactly when it equals 2^(Len(x)-1). */
  lemma PowerOfTwoByLen(x: nat)
    requires x > 0
    ensures Len(x) >= 1
    ensures IsPowerOfTwo(x) <==> Pow2(Len(x) - 1) == x
  {
    LenBounds(x);
    if IsPowerOfTwo(x) {
      var k: nat :| Pow2(k) == x;
      LenUnique(x, k);
    }
  }

  /** The power-of-two test the allocator performs, in terms of IsPowerOfTwo. */
  lemma PowerOfTwoTest(c: nat)
    requires c > 0
    ensures And(c, c - 1) == 0 <==> IsPowerOfTwo(c)
  {
    AndPredecessorTest(c);
    PowerOfTwoByLen(c);
  }
}

=== FILE: buffer.dfy ===
/**
 * The growable buffer: a byte array `data` with a read cursor `start` and a
 * write cursor `end`. The readable content is data[start..end]; data[end..]
 * is free space for writing. Storage comes from the size-class allocator
 * when the initial size fits a class (`pooled`), and goes back to it on
 * Release only in that case.
 *
 * A Go slice has a length and a capacity. `data.Length` is the slice's
 * length, which is what every buffer operation uses; `dataCap` is its
 * capacity, which only matters when the slice is handed back to the
 * allocator. `nilData` marks the nil slice.
 */
module Buffers {
  import opened Wrappers
  import opened Bits
  import opened Alloc

  newtype byte = x: int | 0 <= x < 256

  /** The size New asks the allocator for (32 KiB). */
  const DefaultSize: nat := 32 * 1024

  /** io.EOF and the "negative length" error of ReadBytes. */
  datatype Error = EOF | NegativeLength

  function Min(a: int, b: int): (r: int)
    ensures r <= a && r <= b && (r == a || r == b)
  {
    if a < b then a else b
  }

  function Max(a: int, b: int): (r: int)
    ensures r >= a && r >= b && (r == a || r == b)
  {
    if a < b then b else a
  }

  /**
   * Go's copy(dst[at:], src): copies as many bytes as both sides have room
   * for, reports how many, and leaves the rest of dst alone. src is a value,
   * so an overlapping copy within one array behaves as Go's memmove does.
   */
  method CopyTo(dst: array<byte>, at: nat, src: seq<byte>) returns (n: nat)
    requires at <= dst.Length
    modifies dst
    ensures n == Min(dst.Length - at, |src|)
    ensures dst[at..at + n] == src[..n]
    ensures forall k :: 0 <= k < dst.Length && !(at <= k < at + n) ==> dst[k] == old(dst[k])
  {
    n := Min(dst.Length - at, |src|);
    var i := 0;
    while i < n
      invariant 0 <= i <= n
      invariant forall k :: 0 <= k < i ==> dst[at + k] == src[k]
      invariant forall k :: 0 <= k < dst.Length && !(at <= k < at + i) ==> dst[k] == old(dst[k])
    {
      dst[at + i] := src[i];
      i := i + 1;
    }
  }

  class Buffer {
    var data: array<byte>
    var dataCap: nat
    var nilData: bool
    var start: nat
    var end: nat
    var pooled: bool
    /** The readable bytes, data[start..end]. */
    ghost var content: seq<byte>

    /**
     * The cursors stay inside the data and are both 0 whenever nothing is
     * left to read; pooled storage is non-nil, of a servable length, with
     * the capacity of the class the allocator serves that length from.
     */
    ghost predicate Valid()
      reads this, data
    {
      start <= end <= data.Length &&
      content == data[start..end] &&
      (start == end ==> end == 0) &&
      data.Length <= dataCap &&
      (nilData ==> dataCap == 0) &&
      (pooled ==> !nilData && 0 < data.Length <= MaxSize && dataCap == Pow2(ClassIndex(data.Length)))
    }

    /**
     * NewSize: an empty buffer of `size` bytes of storage. A size <= 0 gives
     * nil storage; a size the allocator serves gives pooled storage; any
     * larger size gives storage of exactly that length, not pooled.
     */
    constructor NewSize(a: Allocator, size: int, cached: bool)
      requires a.Valid()
      modifies a.buffers
      ensures Valid() && a.Valid() && fresh(data)
      ensures content == [] && start == 0 && end == 0
      ensures size <= 0 ==>
                nilData && !pooled && data.Length == 0 && a.buffers[..] == old(a.buffers[..])
      ensures 0 < size <= MaxSize ==>
                pooled && !nilData && data.Length == size && dataCap == Pow2(ClassIndex(size)) &&
                var idx := ClassIndex(size);
                a.buffers[..] == old(a.buffers[..])[idx := old(a.buffers[idx]).Take(cached).0]
      ensures size > MaxSize ==>
                !pooled && !nilData && data.Length == size && a.buffers[..] == old(a.buffers[..])
    {
      var sz := if size < 0 then 0 else size;
      start, end := 0, 0;
      content := [];
      if sz == 0 {
        data, dataCap, nilData, pooled := new byte[0], 0, true, false;
      } else {
        var region := a.Get(sz, cached);
        if region.Some? {
          data, dataCap, nilData, pooled := new byte[region.value.len], region.value.cap, false, true;
        } else {
          data, dataCap, nilData, pooled := new byte[sz], sz, false, false;
        }
      }
    }

    /** New: a buffer of DefaultSize bytes, which the allocator always serves. */
    static method New(a: Allocator, cached: bool) returns (b: Buffer)
      requires a.Valid()
      modifies a.buffers
      ensures fresh(b) && fresh(b.data) && b.Valid() && a.Valid()
      ensures b.content == [] && b.pooled && b.data.Length == DefaultSize && b.dataCap == DefaultSize
      ensures a.buffers[..] == old(a.buffers[..])[15 := old(a.buffers[15]).Take(cached).0]
    {
      b := new Buffer.NewSize(a, DefaultSize, cached);
      ClassSizes();
      ClassIndexIs(DefaultSize, 15);
    }

    /** FromBytes: wraps bs as the readable content; never pooled. */
    constructor FromBytes(bs: seq<byte>)
      ensures Valid() && fresh(data)
      ensures content == bs && start == 0 && end == |bs| && data.Length == |bs|
      ensures !pooled && !nilData
    {
      data := new byte[|bs|](i requires 0 <= i < |bs| => bs[i]);
      dataCap, nilData := |bs|, false;
      start, end, pooled := 0, |bs|, false;
      content := bs;
      new;
      assert data[..] == bs;
    }

    /** The readable bytes. */
    function Bytes(): (r: seq<byte>)
      requires Valid()
      reads this, data
      ensures r == content
    {
      data[start..end]
    }

    /** The number of readable bytes. */
    function Len(): (r: nat)
      requires Valid()
      reads this, data
      ensures r == |content|
    {
      end - start
    }

    /** The length of the storage, i.e. what can be held without growing. */
    function Cap(): (r: nat)
      requires Valid()
      reads this, data
      ensures r >= |content|
      ensures r == data.Length
    {
      data.Length
    }

    /** Whether nothing is left to read. */
    function IsEmpty(): (r: bool)
      requires Valid()
      reads this, data
      ensures r <==> content == []
    {
      Len() == 0
    }

    /** The first min(n, Len()) readable bytes, without consuming them; nothing for n <= 0. */
    function To(n: int): (r: seq<byte>)
      requires Valid()
      reads this, data
      ensures n <= 0 ==> r == []
      ensures n > 0 ==> |r| == Min(n, |content|)
      ensures r == content[..|r|]
    {
      if n <= 0 then []
      else
        var k := if n > Len() then Len() else n;
        data[start..start + k]
    }

    /** Reset: drops the content and keeps the storage. */
    method Reset()
      requires Valid()
      modifies this
      ensures Valid()
      ensures content == [] && start == 0 && end == 0
      ensures data == old(data) && dataCap == old(dataCap) && nilData == old(nilData) && pooled == old(pooled)
    {
      start, end := 0, 0;
      content := [];
    }

    /**
     * grow: makes room for n more bytes after `end` without changing the
     * content. It does nothing when there is room already, otherwise moves
     * the content to the front of the storage, and reallocates only when
     * even the whole storage is too small: the new storage is not pooled and
     * has length max(Len() + n, 2 * Cap()).
     */
    method Grow(n: int)
      requires Valid()
      modifies this, data
      ensures Valid()
      ensures content == old(content)
      ensures n > 0 ==> data.Length - end >= n
      ensures n <= 0 || old(data.Length - end) >= n ==>
                data == old(data) && start == old(start) && end == old(end) && data[..] == old(data[..])
      ensures n > 0 && old(data.Length - end) < n ==> start == 0 && end == |content|
      ensures data != old(data) <==> n > 0 && old(data.Length) - |old(content)| < n
      ensures data == old(data) ==>
                pooled == old(pooled) && dataCap == old(dataCap) && nilData == old(nilData)
      ensures data != old(data) ==>
                fresh(data) && start == 0 && !pooled && !nilData && dataCap == data.Length &&
                data.Length == Max(|old(content)| + n, 2 * old(data.Length))
    {
      if n <= 0 {
        return;
      }
      var free := data.Length - end;
      if free >= n {
        return;
      }

      if start > 0 && end - start > 0 {
        Compact();
        free := data.Length - end;
        if free >= n {
          return;
        }
      }
      Reallocate(n);
    }

    /** The compaction step of grow: moves the content to the front of the same storage. */
    method Compact()
      requires Valid()
      requires start > 0
      modifies this`start, this`end, this`content, data
      ensures Valid()
      ensures content == old(content) && start == 0 && end == |content|
    {
      var _ := CopyTo(data, 0, data[start..end]);
      end := end - start;
      start := 0;
      content := data[start..end];
    }

    /**
     * The reallocation step of grow: fresh, unpooled storage of length
     * max(Len() + n, 2 * Cap()) holding the content at its front.
     */
    method Reallocate(n: int)
      requires Valid()
      requires n > 0
      modifies this
      ensures Valid()
      ensures content == old(content)
      ensures fresh(data) && start == 0 && end == |content| && !pooled && !nilData && dataCap == data.Length
      ensures data.Length == Max(|old(content)| + n, 2 * old(data.Length))
    {
      var curLen := end - start;
      var newCap := curLen + n;
      if newCap < data.Length * 2 {
        newCap := data.Length * 2;
        if newCap == 0 {
          newCap := n;
        }
      }

      var newData := new byte[newCap];
      if curLen > 0 {
        var _ := CopyTo(newData, 0, data[start..end]);
      }
      data := newData;
      start := 0;
      end := curLen;
      pooled := false;
      dataCap, nilData := newCap, false;
      content := data[start..end];
    }

    /**
     * Extend: reserves n bytes at the end and returns where they start; the
     * reserved bytes data[lo..lo + n] become the tail of the content.
     */
    method Extend(n: int) returns (lo: nat)
      requires Valid()
      requires n >= 0
      modifies this, data
      ensures Valid()
      ensures lo + n == end
      ensures old(data.Length - end) >= n ==> start == old(start) && lo == old(end) && data[..] == old(data[..])
      ensures old(data.Length - end) < n ==> start == 0 && lo == |old(content)|
      ensures content == old(content) + data[lo..end]
      ensures |content| == |old(content)| + n
      ensures data != old(data) <==> old(data.Length) - |old(content)| < n
      ensures data == old(data) ==> pooled == old(pooled) && dataCap == old(dataCap) && nilData == old(nilData)
      ensures data != old(data) ==> fresh(data) && !pooled && data.Length == Max(|old(content)| + n, 2 * old(data.Length))
    {
      Grow(n);
      lo := end;
      end := end + n;
      assert data[start..end] == data[start..lo] + data[lo..end];
      content := data[start..end];
    }

    /** Write: appends all of p and reports len(p) with no error. */
    method Write(p: seq<byte>) returns (n: nat, err: Option<Error>)
      requires Valid()
      modifies this, data
      ensures Valid()
      ensures n == |p| && err == None
      ensures content == old(content) + p
      ensures old(data.Length - end) >= |p| ==>
                start == old(start) && end == old(end) + |p| && data == old(data) &&
                forall k :: 0 <= k < data.Length && !(old(end) <= k < end) ==> data[k] == old(data[k])
      ensures p == [] ==>
                data == old(data) && start == old(start) && end == old(end) && pooled == old(pooled) &&
                dataCap == old(dataCap) && nilData == old(nilData) && data[..] == old(data[..])
      ensures data != old(data) <==> old(data.Length) - |old(content)| < |p|
      ensures data == old(data) ==> pooled == old(pooled) && dataCap == old(dataCap) && nilData == old(nilData)
      ensures data != old(data) ==> fresh(data) && !pooled && data.Length == Max(|old(content)| + |p|, 2 * old(data.Length))
    {
      if |p| == 0 {
        return 0, None;
      }
      Grow(|p|);
      n := Append(p);
      err := None;
    }

    /** The copy step of Write: puts p into the free space after end, which has room for it. */
    method Append(p: seq<byte>) returns (n: nat)
      requires Valid()
      requires data.Length - end >= |p|
      modifies this`end, this`content, data
      ensures Valid()
      ensures n == |p| && start == old(start) && end == old(end) + n
      ensures content == old(content) + p
      ensures forall k :: 0 <= k < data.Length && !(old(end) <= k < end) ==> data[k] == old(data[k])
    {
      n := CopyTo(data, end, p);
      assert data[start..end] == old(data[start..end]) by {
        forall k | start <= k < end
          ensures data[k] == old(data[k])
        {
        }
      }
      assert data[start..end + n] == data[start..end] + data[end..end + n];
      end := end + n;
      content := data[start..end];
    }

    /** WriteByte: appends c; never fails. */
    method WriteByte(c: byte) returns (err: Option<Error>)
      requires Valid()
      modifies this, data
      ensures Valid()
      ensures err == None
      ensures content == old(content) + [c]
      ensures old(data.Length - end) >= 1 ==>
                start == old(start) && end == old(end) + 1 && data == old(data) &&
                forall k :: 0 <= k < data.Length && k != old(end) ==> data[k] == old(data[k])
      ensures data != old(data) <==> old(data.Length) == |old(content)|
      ensures data == old(data) ==> pooled == old(pooled) && dataCap == old(dataCap) && nilData == old(nilData)
      ensures data != old(data) ==> fresh(data) && !pooled && data.Length == Max(|old(content)| + 1, 2 * old(data.Length))
    {
      Grow(1);
      data[end] := c;
      end := end + 1;
      content := content + [c];
      err := None;
    }

    /**
     * Read: on an empty buffer reports EOF and changes nothing; otherwise
     * moves min(len(p), Len()) bytes from the front of the content to the
     * front of p.
     */
    method Read(p: array<byte>) returns (n: nat, err: Option<Error>)
      requires Valid()
      requires p != data
      modifies this, p
      ensures Valid()
      ensures data == old(data) && pooled == old(pooled) && dataCap == old(dataCap) && nilData == old(nilData)
      ensures old(content) == [] ==>
                n == 0 && err == Some(EOF) && content == [] && p[..] == old(p[..])
      ensures old(content) != [] ==>
                err == None && n == Min(p.Length, |old(content)|) &&
                p[..n] == old(content)[..n] && p[n..] == old(p[n..]) &&
                content == old(content)[n..]
    {
      if IsEmpty() {
        return 0, Some(EOF);
      }
      n := CopyTo(p, 0, data[start..end]);
      start := start + n;
      if start == end {
        start := 0;
        end := 0;
      }
      content := data[start..end];
      err := None;
    }

    /** ReadByte: EOF on an empty buffer, otherwise consumes the first byte. */
    method ReadByte() returns (c: byte, err: Option<Error>)
      requires Valid()
      modifies this
      ensures Valid()
      ensures data == old(data) && pooled == old(pooled) && dataCap == old(dataCap) && nilData == old(nilData)
      ensures old(content) == [] ==> c == 0 && err == Some(EOF) && content == [] && start == old(start) && end == old(end)
      ensures old(content) != [] ==> err == None && c == old(content)[0] && content == old(content)[1..]
    {
      if IsEmpty() {
        return 0, Some(EOF);
      }
      c := data[start];
      start := start + 1;
      if start == end {
        start := 0;
        end := 0;
      }
      content := data[start..end];
      err := None;
    }

    /**
     * ReadBytes: exactly n bytes or nothing. A negative n is an error and
     * fewer than n readable bytes is EOF, both leaving the buffer as it was;
     * otherwise the first n bytes are copied out and consumed.
     */
    method ReadBytes(n: int) returns (out: seq<byte>, err: Option<Error>)
      requires Valid()
      modifies this
      ensures Valid()
      ensures data == old(data) && pooled == old(pooled) && dataCap == old(dataCap) && nilData == old(nilData)
      ensures n < 0 ==> out == [] && err == Some(NegativeLength)
      ensures 0 <= n && |old(content)| < n ==> out == [] && err == Some(EOF)
      ensures err.Some? ==> content == old(content) && start == old(start) && end == old(end)
      ensures 0 <= n <= |old(content)| ==>
                err == None && out == old(content)[..n] && content == old(content)[n..]
    {
      if n < 0 {
        return [], Some(NegativeLength);
      }
      if Len() < n {
        return [], Some(EOF);
      }
      out := data[start..start + n];
      assert out == content[..n] && data[start + n..end] == content[n..];
      start := start + n;
      if start == end {
        start := 0;
        end := 0;
      }
      content := data[start..end];
      err := None;
    }

    /**
     * Release: hands pooled storage back to the class it was drawn from and
     * leaves the buffer as the zero Buffer. Storage that is not pooled
     * (including nil storage, wrapped bytes and reallocated storage) never
     * reaches the allocator. Put cannot refuse pooled storage, so the error
     * it would report and Release discards never arises.
     */
    method Release(a: Allocator)
      requires Valid() && a.Valid()
      modifies this, a.buffers
      ensures Valid() && a.Valid()
      ensures nilData && data.Length == 0 && dataCap == 0 && start == 0 && end == 0 && !pooled
      ensures content == []
      ensures old(pooled) ==>
                var idx := ClassIndex(old(data.Length));
                a.buffers[..] == old(a.buffers[..])[idx := old(a.buffers[idx]).Give(Region(old(dataCap), old(dataCap)))]
      ensures !old(pooled) ==> a.buffers[..] == old(a.buffers[..])
    {
      if pooled && !nilData {
        var idx := ClassIndex(data.Length);
        MsbOfPow2(idx);
        ClassCapacity(data.Length);
        var _ := a.Put(Some(Region(data.Length, dataCap)));
      }
      data, dataCap, nilData := new byte[0], 0, true;
      start, end, pooled := 0, 0, false;
      content := [];
    }
  }
}

=== FILE: scenarios.dfy ===
/**
 * Client-side consequences of the allocator and buffer contracts: the
 * concrete cases the repository's tests exercise, and the round trips the
 * buffer promises, proved from the contracts alone.
 */
module Scenarios {
  import opened Wrappers
  import opened Bits
  import opened Alloc
  import opened Buffers

  /** Get's size classes for the sizes the allocator tests ask for. */
  lemma GetCapacityExamples()
    ensures Pow2(ClassIndex(1)) == 1 && Pow2(ClassIndex(2)) == 2
    ensures Pow2(ClassIndex(3)) == 4 && Pow2(ClassIndex(4)) == 4
    ensures Pow2(ClassIndex(1023)) == 1024 && Pow2(ClassIndex(1024)) == 1024
    ensures Pow2(ClassIndex(65536)) == 65536
  {
    ClassSizes();
    ClassIndexIs(1, 0);
    ClassIndexIs(2, 1);
    ClassIndexIs(3, 2);
    ClassIndexIs(4, 2);
    ClassIndexIs(1023, 10);
    ClassIndexIs(1024, 10);
    ClassIndexIs(65536, 16);
  }

  /** msb on the values its documentation lists. */
  lemma MsbExamples()
    ensures Msb(1) == 0 && Msb(2) == 1 && Msb(3) == 1 && Msb(4) == 2
  {
    MsbUnique(1, 0);
    MsbUnique(2, 1);
    MsbUnique(3, 1);
    MsbUnique(4, 2);
  }

  /** Put's verdicts on the regions the allocator tests return to it. */
  lemma PutExamples()
    ensures CheckPut(None) == Failure(NilRegion)
    ensures CheckPut(Some(Region(3, 3))) == Failure(NotPowerOfTwo)
    ensures CheckPut(Some(Region(4, 4))).Success?
    ensures CheckPut(Some(Region(65536, 65536))).Success?
    ensures CheckPut(Some(Region(65537, 65537))) == Failure(BadSize)
  {
    MaxSizeIsPow2();
    assert Pow2(2) == 4;
    PowerOfTwoTest(3);
  }

  /** A buffer of initial capacity 2 takes "abcdefg" by growing, and holds exactly it. */
  method WriteGrows(a: Allocator, cached: bool) returns (b: Buffer)
    requires a.Valid()
    modifies a.buffers
    ensures b.Valid() && a.Valid()
    ensures b.content == [97, 98, 99, 100, 101, 102, 103]
    ensures b.Len() == 7 && b.Cap() >= 7 && !b.pooled
  {
    b := new Buffer.NewSize(a, 2, cached);
    var n, err := b.Write([97, 98, 99, 100, 101, 102, 103]);
  }

  /** To(2) and To(10) on a buffer wrapping "hello": the first two bytes, then all five. */
  method ToClamps() returns (head2: seq<byte>, head10: seq<byte>)
    ensures head2 == [104, 101]
    ensures head10 == [104, 101, 108, 108, 111]
  {
    var b := new Buffer.FromBytes([104, 101, 108, 108, 111]);
    head2 := b.To(2);
    head10 := b.To(10);
  }

  /**
   * ReadBytes on "abcdef" takes "abc" then "def" and drains the buffer;
   * on "xy" a request for 3 bytes reports EOF and keeps both bytes.
   */
  method ReadBytesExactly() returns (part1: seq<byte>, part2: seq<byte>, short: Option<Error>, kept: nat)
    ensures part1 == [97, 98, 99] && part2 == [100, 101, 102]
    ensures short == Some(EOF) && kept == 2
  {
    var b := new Buffer.FromBytes([97, 98, 99, 100, 101, 102]);
    var err;
    part1, err := b.ReadBytes(3);
    part2, err := b.ReadBytes(3);
    assert b.IsEmpty();
    var b2 := new Buffer.FromBytes([120, 121]);
    var none;
    none, short := b2.ReadBytes(3);
    kept := b2.Len();
  }

  /**
   * Any bytes written one at a time into a nil-storage buffer, however many
   * times that forces it to grow, come back in order through ReadByte, and
   * the drained buffer then reports EOF.
   */
  method WriteByteThenReadByte(a: Allocator, s: seq<byte>) returns (r: seq<byte>, last: Option<Error>)
    requires a.Valid()
    modifies a.buffers
    ensures r == s && last == Some(EOF)
  {
    var b := new Buffer.NewSize(a, 0, false);
    var i := 0;
    while i < |s|
      invariant 0 <= i <= |s|
      invariant fresh(b) && fresh(b.data) && b.Valid() && b.content == s[..i]
    {
      var err := b.WriteByte(s[i]);
      assert s[..i + 1] == s[..i] + [s[i]];
      i := i + 1;
    }
    assert s[..i] == s;
    r := ReadAllBytes(b);
    var c;
    c, last := b.ReadByte();
  }

  /** Reads a buffer byte by byte until it is empty; the bytes come out in order. */
  method ReadAllBytes(b: Buffer) returns (r: seq<byte>)
    requires b.Valid()
    modifies b
    ensures b.Valid() && b.content == []
    ensures r == old(b.content)
  {
    r := [];
    while !b.IsEmpty()
      invariant b.Valid() && r + b.content == old(b.content)
      decreases |b.content|
    {
      ghost var rest := b.content;
      var c, err := b.ReadByte();
      assert c == rest[0] && b.content == rest[1..];
      assert [c] + b.content == rest;
      r := r + [c];
    }
  }

  /** Extend(3) after writing "ab" adds three bytes behind "ab", at the returned offset. */
  method ExtendAfterWrite(a: Allocator, cached: bool) returns (b: Buffer, lo: nat)
    requires a.Valid()
    modifies a.buffers
    ensures b.Valid()
    ensures b.Len() == 5 && b.content[..2] == [97, 98]
    ensures lo + 3 == b.end && b.content[2..] == b.data[lo..lo + 3]
  {
    b := new Buffer.NewSize(a, 2, cached);
    var n, err := b.Write([97, 98]);
    lo := b.Extend(3);
  }

  /**
   * Draining a buffer only resets its cursors, so Extend hands the old bytes
   * back as content: "abcdef" read out in full, then Extend(3), holds "abc".
   */
  method ExtendExposesOldBytes() returns (reserved: seq<byte>)
    ensures reserved == [97, 98, 99]
  {
    var b := new Buffer.FromBytes([97, 98, 99, 100, 101, 102]);
    var out, err := b.ReadBytes(6);
    var lo := b.Extend(3);
    reserved := b.Bytes();
  }

  /**
   * Writing p into an empty buffer and reading into a destination large
   * enough for it gives back p and drains the buffer.
   */
  method WriteThenRead(b: Buffer, p: seq<byte>, dst: array<byte>) returns (n: nat)
    requires b.Valid() && b.content == []
    requires p != [] && |p| <= dst.Length && dst != b.data
    modifies b, b.data, dst
    ensures b.Valid() && b.content == []
    ensures n == |p| && dst[..n] == p
  {
    var written, err := b.Write(p);
    n, err := b.Read(dst);
  }

  /** After Reset, a write leaves exactly what was written, in the same storage when it fits. */
  method ResetThenWrite(b: Buffer, p: seq<byte>)
    requires b.Valid() && |p| <= b.data.Length
    modifies b, b.data
    ensures b.Valid() && b.content == p
    ensures b.data == old(b.data) && b.pooled == old(b.pooled)
  {
    b.Reset();
    var n, err := b.Write(p);
  }

  /**
   * Releasing a pooled buffer returns its region to its class once; a
   * second Release, and a Release of a wrapping buffer, leave every pool as
   * it was.
   */
  method ReleaseIsSafe(a: Allocator, cached: bool)
    requires a.Valid()
    modifies a.buffers
    ensures a.Valid()
    ensures a.buffers[..] == old(a.buffers[..])[4 := old(a.buffers[4]).Take(cached).0.Give(Region(16, 16))]
  {
    var b := new Buffer.NewSize(a, 10, cached);
    ghost var afterNew := a.buffers[..];
    b.Release(a);
    ClassSizes();
    ClassIndexIs(10, 4);
    assert a.buffers[..] == afterNew[4 := afterNew[4].Give(Region(16, 16))];
    ghost var afterFirst := a.buffers[..];
    b.Release(a);
    assert a.buffers[..] == afterFirst;
    var w := new Buffer.FromBytes([120]);
    w.Release(a);
    assert a.buffers[..] == afterFirst;
  }
}

=== FILE: wrappers.dfy ===
/** Option and Result, used for Go's nil returns and error values. */
module Wrappers {

  datatype Option<+T> = None | Some(value: T)

  datatype Result<+R, +E> = Success(value: R) | Failure(error: E)
}
